=== FILE: README.md ===
# NFT staking program — a verified model

This project models the staking core of an Anchor program on Solana
(`programs/create-nft-program/src/lib.rs`). A holder stakes an NFT without
giving it up. The token account that holds the NFT is delegated to a
program-derived *custody authority* (seed `"authority"`) for one token and
then frozen through the metadata program. A `StakingData` record, stored at
the address derived from `[user, user_token_account]`, keeps the time the
stake began. `unstake` does the following, in the code's order:

1. it computes the reward `now - timestamp` in `u64`;
2. it thaws the account;
3. it revokes the delegation;
4. it tries to mint the reward from the reward mint (seed `"token-mint"`),
   signing as the `"mint-authority"` derived authority; the code means a
   failed mint to be only reported, but the runtime aborts the instruction
   on it (see Findings);
5. it closes the record.

The token program and the metadata program are external. They are modelled
only by their effect on token accounts (delegate, delegated amount, frozen
flag, balance) and on mints (supply, authorities).

Files and modules:

- `runtime.dfy` (`Runtime`): `u64`, `i64`, the error codes, `Result`, `Option`.
- `addresses.dfy` (`Addresses`): addresses, and the derived addresses of the
  custody authority, the mint authority, the reward mint, the stake records,
  associated token accounts and master editions. Derivation is the
  constructor `Derived(program, seeds)`, so it is deterministic and injective
  by construction.
- `token_programs.dfy` (`TokenPrograms`): `approve`, `revoke` and `mint_to`
  of the token program; `freeze_delegated_account` and
  `thaw_delegated_account` of the metadata program. Each is a pure function
  from an account value to its new value or an error.
- `staking.dfy` (`Staking`): the two instructions as functions from a `State`
  (records, token accounts, mints) to `Err(e)` or the new state. Account
  validation follows the framework's phases: every existing account is
  loaded first (a missing one is `AccountNotInitialized`), then the `init`
  or `init_if_needed` account is created or checked, then the remaining
  constraints run. A failed transaction returns `Err` and changes nothing.
- `invariant.dfy` (`StakingInvariant`): the invariant "a pair is staked
  exactly when its account is delegated to the custody authority and frozen";
  its preservation by both instructions and by any sequence of transactions;
  the round trip; the liveness of `unstake` on a staked pair.
- `chain.dfy` (`Instructions`): class `Chain`, whose fields are the record,
  token-account and mint maps. Its methods `Stake` and `Unstake` run the
  instructions step by step. They create the record at validation time, write
  the timestamp in place, apply each external call in turn, and roll every
  write back when a step fails. Each is proved equal to the function in
  `Staking`.

Notes on the code that the model makes explicit:

- `unstake` computes the reward first, then thaws, revokes and mints, and
  closes the record last.
- The token program's `approve` does not compare the amount with the
  balance. The metadata program's freeze is what rejects an account whose
  balance differs from the delegated amount.
- `revoke` succeeds on an account that has no delegate.
- A clock earlier than the record makes the `u64` subtraction at line 128
  abort the transaction (`ArithmeticOverflow`). This assumes overflow checks
  are on, as in the release profile of an Anchor workspace.
- Timestamps are `unix_timestamp.unsigned_abs()`, so a negative clock
  reading counts as its absolute value.

## Model

| member | source | states |
|---|---|---|
| Addresses.StakeAddressInjective | programs/create-nft-program/src/lib.rs:269-276 | the record address determines its (user, token account) pair, so two pairs never share a record; and it differs from the authorities and the reward mint |
| Addresses.AuthoritiesDistinct | programs/create-nft-program/src/lib.rs:338-345 | the custody authority, the mint authority and the reward mint are distinct derived addresses, and none is the key of an ordinary account |
| TokenPrograms.Approve | programs/create-nft-program/src/lib.rs:304-315 | `approve` succeeds iff the account is not frozen and the owner signs; on success it sets the delegate and the amount and leaves the holding unchanged |
| TokenPrograms.Revoke | programs/create-nft-program/src/lib.rs:364-373 | `revoke` succeeds iff the account is not frozen and the owner signs; on success there is no delegate and the delegated amount is 0, and the holding is unchanged |
| TokenPrograms.DelegationFault | programs/create-nft-program/src/lib.rs:100-106 | the metadata program's checks pass iff the mint's freeze authority is its master edition, the account holds the NFT, and all of it is delegated to the signer |
| TokenPrograms.FreezeDelegated | programs/create-nft-program/src/lib.rs:100-118 | the freeze succeeds iff those checks pass and the account is not frozen; it changes only the frozen flag |
| TokenPrograms.ThawDelegated | programs/create-nft-program/src/lib.rs:135-153 | the thaw succeeds iff those checks pass and the account is frozen; it changes only the frozen flag |
| TokenPrograms.MintTo | programs/create-nft-program/src/lib.rs:374-383 | the mint succeeds iff the destination is not frozen, holds the mint, the signer is the mint authority, and neither balance nor supply overflows u64; then both rise by exactly the amount and nothing else changes |
| TokenPrograms.ThawUndoesFreeze | programs/create-nft-program/src/lib.rs:135-153 | thawing a freshly frozen account restores it exactly |
| TokenPrograms.RevokeUndoesApprove | programs/create-nft-program/src/lib.rs:158 | revoking after approving leaves the holding intact with no delegation |
| Staking.UnsignedAbs | programs/create-nft-program/src/lib.rs:122 | the timestamp is the clock's absolute value and fits in u64 |
| Staking.Reward | programs/create-nft-program/src/lib.rs:128 | the reward is defined iff the clock is not behind the record; then reward + timestamp = now; otherwise the instruction aborts instead of wrapping |
| Staking.Stake | programs/create-nft-program/src/lib.rs:90-125 | succeeds iff the pair has no record, its token account is the user's unfrozen associated account holding the one NFT, and the edition is the mint's master edition holding its freeze authority; a missing NFT mint or token account is `AccountNotInitialized`; an existing record is `AccountAlreadyInUse`, so a pair is staked at most once; a token account held by someone else is `ConstraintTokenOwner`; on success: exactly one new record, holding the clock; the account delegated to the custody authority for 1 and frozen; nothing else changes |
| Staking.Unstake | programs/create-nft-program/src/lib.rs:127-182 | a missing record, NFT mint, NFT account or reward mint is `AccountNotInitialized`; an existing reward account held by someone else or of another mint is refused by `init_if_needed` (`ConstraintTokenMint`, then `ConstraintTokenOwner`); on success: an existing reward account is the user's account of the reward mint; the account was the pair's associated account, frozen and fully delegated to the custody authority (else thaw or revoke aborts); the reward is now − timestamp; the record is closed; the account is thawed with no delegate; a newly created reward account is the user's empty account of the reward mint; a mint failure is reported exactly when the token program's `mint_to` refuses, with its error; the reward balance and supply rise by the reward exactly when the mint succeeded; other accounts, records and mints are unchanged |
| Staking.UnstakeOnChain | programs/create-nft-program/src/lib.rs:167-176 | `unstake` as the runtime executes it: it succeeds iff `Unstake` succeeds with the mint accepted, and then agrees with it; a refused mint aborts the instruction with the token program's error |
| StakingInvariant.StakedIffLocked | programs/create-nft-program/src/lib.rs:94-122 | in a valid state, a pair has a record iff its account is its associated account, delegated to the custody authority for its one token, and frozen |
| StakingInvariant.OneRecordPerAccount | programs/create-nft-program/src/lib.rs:269-276 | in a valid state, one token account is held by at most one record |
| StakingInvariant.StakePreservesValid | programs/create-nft-program/src/lib.rs:90-125 | `stake` keeps the invariant |
| StakingInvariant.UnstakeKeepsFrozenAccounts | programs/create-nft-program/src/lib.rs:167-176 | `unstake` leaves every other frozen account untouched, the reward account included: the mint is refused there |
| StakingInvariant.UnstakeKeepsRecordsLocked | programs/create-nft-program/src/lib.rs:127-182 | after `unstake`, every remaining record still locks its account |
| StakingInvariant.UnstakeKeepsLockedRecorded | programs/create-nft-program/src/lib.rs:127-182 | after `unstake`, every account frozen under custody still has its record |
| StakingInvariant.UnstakePreservesValid | programs/create-nft-program/src/lib.rs:127-182 | `unstake` keeps the invariant |
| StakingInvariant.UnstakeOfStakedPair | programs/create-nft-program/src/lib.rs:127-182 | on a staked pair with the right accounts, `unstake` as the code intends it succeeds iff the clock is not behind the record; thaw and revoke cannot fail there, and the outcome does not depend on whether the mint succeeds (the runtime does not honour this: see Findings); a clock behind the record gives `ArithmeticOverflow` |
| StakingInvariant.RefusedMintLocksNftOnChain | programs/create-nft-program/src/lib.rs:167-176 | as the runtime executes it, `unstake` aborts at every clock while the reward mint's mint authority is not the derived one, so the NFT cannot be released |
| StakingInvariant.StakeEnablesUnstake | programs/create-nft-program/src/lib.rs:90-182 | after `stake`, the state is valid, the pair is staked at the stake's clock, and every condition `unstake` needs holds |
| StakingInvariant.StakeUnstakeRoundTrip | programs/create-nft-program/src/lib.rs:90-182 | `stake` then `unstake` with a clock that did not go back succeeds, computes a reward of exactly the elapsed time (minted when the mint succeeds), and restores the records as they were before the stake |
| StakingInvariant.RoundTripReleasesAccount | programs/create-nft-program/src/lib.rs:135-158 | after the round trip, the state is valid and the token account is thawed, undelegated, and otherwise as before staking |
| StakingInvariant.RoundTripAllowsRestake | programs/create-nft-program/src/lib.rs:90-182 | after stake and unstake, the pair can be staked again at any clock, and the new record is the only change to the records before the first stake |
| StakingInvariant.NoDoubleUnstake | programs/create-nft-program/src/lib.rs:179 | after a successful `unstake`, a second `unstake` of the pair is refused, so no reward is paid twice |
| StakingInvariant.UnstakeOnChainPreservesValid | programs/create-nft-program/src/lib.rs:127-182 | a successful `unstake` as the runtime executes it keeps the invariant |
| StakingInvariant.RunPreservesValid | programs/create-nft-program/src/lib.rs:90-182 | any sequence of atomic `stake`/`unstake` transactions keeps the invariant |
| Scenarios.StakeThenUnstakePaysElapsedTime | programs/create-nft-program/src/lib.rs:90-182 | on a ledger with one NFT, stake at 1000 and unstake at 1500 succeed; the reward of 500 is minted into a newly created reward account, and no record remains |
| Scenarios.SecondStakeRefused | programs/create-nft-program/src/lib.rs:269-276 | a second stake of the same pair at 1200 is refused with `AccountAlreadyInUse`, and the record still holds 1000 |
| Scenarios.UnstakeWithoutRecordRefused | programs/create-nft-program/src/lib.rs:322-327 | unstaking a pair that was never staked is refused with `AccountNotInitialized` |
| Scenarios.FailedMintStillUnstakes | programs/create-nft-program/src/lib.rs:167-181 | following the code's intended handling of a refused mint: when the reward mint's authority is not the derived mint authority, the mint fails with `OwnerMismatch`, yet unstake succeeds, closes the record and returns the NFT account to its unstaked form |
| Scenarios.FailedMintAbortsOnChain | programs/create-nft-program/src/lib.rs:167-176 | on the same ledger as the runtime executes it, `unstake` aborts with `OwnerMismatch` and the NFT stays staked and frozen |
| Instructions.Chain.Stake | programs/create-nft-program/src/lib.rs:90-125 | the in-place `stake` (validation, approve, freeze, timestamp write, rollback on failure) returns and leaves exactly what `Staking.Stake` specifies, and keeps the invariant |
| Instructions.Chain.Unstake | programs/create-nft-program/src/lib.rs:127-182 | the in-place `unstake` (validation with `init_if_needed`, reward, thaw, revoke, best-effort mint, close, rollback on failure) returns and leaves exactly what `Staking.Unstake` specifies, and keeps the invariant |

## Findings

| source | as written | input that shows it | evidently intended | confidence | as-written member | corrected member |
|---|---|---|---|---|---|---|
| programs/create-nft-program/src/lib.rs:167-176 | `unstake` treats a failed `mint_to` as non-fatal, but the runtime aborts the calling instruction when the token program refuses, so the `is_err()` branch never runs and the whole `unstake` fails | a staked NFT and a reward mint whose mint authority is not the derived mint authority (or a frozen reward account): every `unstake` aborts and the NFT stays frozen under custody | a refused reward mint is reported and `unstake` still thaws the NFT, revokes the delegation and closes the record | not executed; high that the branch is dead, medium that release was intended | StakingInvariant.RefusedMintLocksNftOnChain | StakingInvariant.UnstakeOfStakedPair |

The rest of the model (`Chain.Unstake`, the invariant and the round trip) uses `Staking.Unstake`, the code's intended handling. `Staking.UnstakeOnChain` is the instruction as the runtime executes it.

## Left out

- `initialize_mint`, `create_nft` and their account structs (`InitializeMint`, `CreateNFT`, `CreateNFT::mint_to_ctx`): they create the NFT, its metadata and the reward mint by calling the token and metadata programs, and hold no staking logic. The model starts from any state holding such accounts.
- Address derivation itself (SHA-256 over the seeds, the bump search, `bumps.get(..).unwrap()`). The `Derived` constructor stands for it, so injectivity is an assumption. It rests on collision resistance; the stake seeds are two 32-byte keys, so concatenating them is unambiguous.
- Accounts whose key is fixed by seeds or a constraint (`stake`, always at the address derived from the user and the token account, so a wrong record account's seeds failure is not modelled; the reward `user_token_account`, always the user's associated account of the reward mint, so the address check of `init_if_needed` is not modelled; `program_authority`, `token_mint`, `mint_authority`, `metadata_program`, the system, token and associated-token programs), the `owner = METADATA_PROGRAM_ID` check on `master_edition`, and signer checks. The model always uses the expected key, and the `user` argument is the signer. A transaction that names another account is rejected by validation; that case is not modelled.
- The exact error code of a validation failure when several accounts are wrong at once. The model follows the framework's phases (load, then `init`/`init_if_needed`, then constraints) and names one error per failure; whether a transaction succeeds does not depend on which error is chosen. The associated-token checks also compare the account's mint, which holds for every account the associated token program creates.
- Lamports, rent, account space (`8 + 8`), the payer's funds for `init` and `init_if_needed`, and the deposit refund on close. Closing is modelled as removing the record.
- `msg!` logging. `Unstake` returns the reward and the mint error in a `Receipt` instead.
- A failing `Clock::get()`. The clock reading is a parameter.
- Overflow behaviour with overflow checks off. If the release profile disabled them, the subtraction at line 128 would wrap instead of abort.
- The rest of the token and metadata programs: transfers, burns, decimals, native accounts, and the exact error a call reports when several of its checks fail.
- The scaling of the reward against the reward mint's 8 decimals. The model counts in base units, as the code does.
- Concurrency. Each instruction is one atomic step, and `Run` executes transactions one after another.
- `tests/create-nft-program.ts`: it only creates an NFT.

=== FILE: addresses.dfy ===
/**
 * Account addresses. An ordinary account has a key of its own; a program
 * derived address is determined by the deriving program and its seeds and
 * has no private key, so only the deriving program can sign for it.
 *
 * The derivation (hashing the seeds, searching a bump that puts the address
 * off the curve) is abstracted into the constructor `Derived`, which makes it
 * deterministic and injective by construction.
 */
module Addresses {

  /** The programs that derive addresses in this model. */
  datatype Program = StakingProgram | TokenProgram | AssociatedTokenProgram | MetadataProgram

  /** One seed: a literal byte string or the bytes of an address. */
  datatype Seed = Text(text: string) | Key(key: Address)

  datatype Address =
    | Keypair(id: nat)
    | ProgramId(program: Program)
    | Derived(program: Program, seeds: seq<Seed>)

  /** `find_program_address(seeds, program)`, without the bump. */
  function Derive(program: Program, seeds: seq<Seed>): Address
  {
    Derived(program, seeds)
  }

  /** The custody authority: delegate of every staked token account (seed "authority"). */
  function ProgramAuthority(): Address
  {
    Derive(StakingProgram, [Text("authority")])
  }

  /** The authority of the reward mint (seed "mint-authority"). */
  function MintAuthority(): Address
  {
    Derive(StakingProgram, [Text("mint-authority")])
  }

  /** The reward mint (seed "token-mint"). */
  function RewardMint(): Address
  {
    Derive(StakingProgram, [Text("token-mint")])
  }

  /** The stake record of `holder` for its token account `account`: seeds [holder, account]. */
  function StakeAddress(holder: Address, account: Address): Address
  {
    Derive(StakingProgram, [Key(holder), Key(account)])
  }

  /** The associated token account of `owner` for `mint`. */
  function AssociatedTokenAddress(owner: Address, mint: Address): Address
  {
    Derive(AssociatedTokenProgram, [Key(owner), Key(ProgramId(TokenProgram)), Key(mint)])
  }

  /** The master edition account of an NFT mint, owned by the metadata program. */
  function MasterEditionAddress(mint: Address): Address
  {
    Derive(MetadataProgram, [Text("metadata"), Key(ProgramId(MetadataProgram)), Key(mint), Text("edition")])
  }

  /** True of the addresses `StakeAddress` can produce. */
  predicate IsStakeAddress(a: Address)
  {
    a.Derived? && a.program == StakingProgram && |a.seeds| == 2 && a.seeds[0].Key? && a.seeds[1].Key?
  }

  /** The holder a stake record address was derived from. */
  function Holder(a: Address): (holder: Address)
    requires IsStakeAddress(a)
    ensures StakeAddress(holder, HeldAccount(a)) == a
  {
    a.seeds[0].key
  }

  /** The token account a stake record address was derived from. */
  function HeldAccount(a: Address): Address
    requires IsStakeAddress(a)
  {
    a.seeds[1].key
  }

  /**
   * A stake record address determines its (holder, token account) pair, so
   * one address can never serve two pairs, and it is distinct from the
   * fixed authorities and the reward mint.
   */
  lemma StakeAddressInjective(h1: Address, a1: Address, h2: Address, a2: Address)
    ensures StakeAddress(h1, a1) == StakeAddress(h2, a2) <==> h1 == h2 && a1 == a2
    ensures IsStakeAddress(StakeAddress(h1, a1))
    ensures Holder(StakeAddress(h1, a1)) == h1 && HeldAccount(StakeAddress(h1, a1)) == a1
    ensures StakeAddress(h1, a1) !in {ProgramAuthority(), MintAuthority(), RewardMint()}
  {
  }

  /** Derivation is deterministic and the two signing authorities are distinct. */
  lemma AuthoritiesDistinct()
    ensures ProgramAuthority() != MintAuthority()
    ensures ProgramAuthority() != RewardMint() && MintAuthority() != RewardMint()
    ensures forall id: nat :: Keypair(id) != ProgramAuthority() && Keypair(id) != MintAuthority() && Keypair(id) != RewardMint()
  {
  }
}

=== FILE: chain.dfy ===
/**
 * The two instructions step by step, as the code intends them: a `Chain`
 * holds the accounts, and each instruction validates its accounts, calls the
 * token and metadata programs one after another, writes the results in
 * place, and rolls every write back when a step fails, as the runtime does
 * with a failed transaction. A refused reward mint is handled as the code
 * handles it (reported, not raised); the runtime itself aborts on it
 * (`Staking.UnstakeOnChain`).
 */
module Instructions {
  import opened Runtime
  import opened Addresses
  import opened TokenPrograms
  import opened Staking
  import opened StakingInvariant

  class Chain {
    /** Stake records, owned by the staking program. */
    var records: map<Address, StakingData>
    /** Token accounts, owned by the token program. */
    var tokens: map<Address, TokenAccount>
    /** Mints, owned by the token program. */
    var mints: map<Address, Mint>

    /** The accounts as a value. */
    function Snapshot(): State
      reads this
    {
      State(records, tokens, mints)
    }

    constructor (s: State)
      ensures Snapshot() == s
    {
      records, tokens, mints := s.records, s.tokens, s.mints;
    }

    /** Discards the writes of a failed transaction. */
    method Restore(saved: State)
      modifies this
      ensures Snapshot() == saved
    {
      records, tokens, mints := saved.records, saved.tokens, saved.mints;
    }

    /**
     * `stake`: once the existing accounts are loaded, the `init` constraint
     * creates the record (zeroed) and the associated-token constraint is
     * checked; then the owner approves the custody authority for one token,
     * the custody authority freezes the account, and the record takes the
     * clock.
     */
    method Stake(acc: NftAccounts, now: i64) returns (r: Result<()>)
      modifies this
      ensures match Staking.Stake(old(Snapshot()), acc, now)
        case Ok(s') => r == Ok(()) && Snapshot() == s'
        case Err(e) => r == Err(e) && Snapshot() == old(Snapshot())
      ensures old(Valid(Snapshot())) ==> Valid(Snapshot())
    {
      var saved := Snapshot();
      var key := StakeAddress(acc.user, acc.tokenAccount);
      if acc.nftMint !in mints || acc.tokenAccount !in tokens {
        return Err(AccountNotInitialized);
      }
      if key in records {
        return Err(AccountAlreadyInUse);
      }
      records := records[key := StakingData(0)];
      if !IsAssociated(tokens, acc.tokenAccount, acc.user, acc.nftMint) {
        Restore(saved);
        return Err(AssociatedError(tokens[acc.tokenAccount], acc.user));
      }

      var approved := Approve(tokens[acc.tokenAccount], acc.user, ProgramAuthority(), 1);
      if approved.Err? {
        Restore(saved);
        return Err(approved.error);
      }
      tokens := tokens[acc.tokenAccount := approved.value];

      var frozen := FreezeDelegated(tokens[acc.tokenAccount], acc.nftMint, mints[acc.nftMint], acc.masterEdition, ProgramAuthority());
      if frozen.Err? {
        Restore(saved);
        return Err(frozen.error);
      }
      tokens := tokens[acc.tokenAccount := frozen.value];

      records := records[key := records[key].(timestamp := UnsignedAbs(now))];
      r := Ok(());
      assert records == saved.records[key := StakingData(UnsignedAbs(now))];
      assert tokens == saved.tokens[acc.tokenAccount := frozen.value];
      assert Staking.Stake(saved, acc, now) == Ok(Snapshot());
      if Valid(saved) {
        StakePreservesValid(saved, acc, now);
      }
    }

    /**
     * `unstake`: once the existing accounts are loaded, validation creates
     * the reward account if needed and checks the NFT account; then the
     * reward is computed, the account is thawed and its delegation revoked,
     * the reward is minted (a failure is reported, as the code intends), and the
     * record is closed.
     */
    method Unstake(acc: NftAccounts, now: i64) returns (r: Result<Receipt>)
      modifies this
      ensures match Staking.Unstake(old(Snapshot()), acc, now)
        case Ok(res) => r == Ok(res.1) && Snapshot() == res.0
        case Err(e) => r == Err(e) && Snapshot() == old(Snapshot())
      ensures old(Valid(Snapshot())) ==> Valid(Snapshot())
    {
      var saved := Snapshot();
      var key := StakeAddress(acc.user, acc.tokenAccount);
      var rewardAccount := RewardAccount(acc.user);
      if acc.nftMint !in mints || key !in records || acc.tokenAccount !in tokens || RewardMint() !in mints {
        return Err(AccountNotInitialized);
      }
      if rewardAccount !in tokens {
        tokens := tokens[rewardAccount := EmptyAccount(RewardMint(), acc.user)];
      } else if !IsAssociated(tokens, rewardAccount, acc.user, RewardMint()) {
        return Err(ExistingRewardAccountError(tokens[rewardAccount]));
      }
      assert tokens == WithRewardAccount(saved.tokens, acc.user);
      if !IsAssociated(tokens, acc.tokenAccount, acc.user, acc.nftMint) {
        Restore(saved);
        return Err(AssociatedError(saved.tokens[acc.tokenAccount], acc.user));
      }

      var reward := Reward(now, records[key].timestamp);
      if reward.Err? {
        Restore(saved);
        return Err(reward.error);
      }

      var thawed := ThawDelegated(tokens[acc.tokenAccount], acc.nftMint, mints[acc.nftMint], acc.masterEdition, ProgramAuthority());
      if thawed.Err? {
        Restore(saved);
        return Err(thawed.error);
      }
      tokens := tokens[acc.tokenAccount := thawed.value];

      var revoked := Revoke(tokens[acc.tokenAccount], acc.user);
      if revoked.Err? {
        Restore(saved);
        return Err(revoked.error);
      }
      tokens := tokens[acc.tokenAccount := revoked.value];

      var minted := MintTo(RewardMint(), mints[RewardMint()], tokens[rewardAccount], MintAuthority(), reward.value);
      var mintFailure: Option<Error>;
      if minted.Err? {
        mintFailure := Some(minted.error);
      } else {
        mints := mints[RewardMint() := minted.value.0];
        tokens := tokens[rewardAccount := minted.value.1];
        mintFailure := None;
      }

      records := records - {key};
      r := Ok(Receipt(reward.value, mintFailure));
      assert Staking.Unstake(saved, acc, now) == Ok((Snapshot(), Receipt(reward.value, mintFailure)));
      if Valid(saved) {
        UnstakePreservesValid(saved, acc, now);
      }
    }
  }
}

=== FILE: invariant.dfy ===
/**
 * The invariant the two instructions keep together: a pair is staked exactly
 * when its token account is delegated to the custody authority for its one
 * token and frozen. With it come the lemmas that relate several calls: the
 * round trip, the liveness of `unstake` on a staked pair, and the invariant
 * over any sequence of transactions.
 */
module StakingInvariant {
  import opened Runtime
  import opened Addresses
  import opened TokenPrograms
  import opened Staking

  /**
   * `account` is locked on behalf of `holder`: it is `holder`'s associated
   * account, its single token is delegated to the custody authority, it is
   * frozen, and its mint's freeze authority is the master edition.
   */
  ghost predicate Locked(s: State, holder: Address, account: Address)
  {
    account in s.tokens &&
    var t := s.tokens[account];
    t.owner == holder && account == AssociatedTokenAddress(holder, t.mint) &&
    t.delegate == Some(ProgramAuthority()) && t.amount == 1 && t.delegatedAmount == 1 && t.frozen &&
    t.mint in s.mints && s.mints[t.mint].freezeAuthority == Some(MasterEditionAddress(t.mint))
  }

  /** Every record locks its pair's account, and every account frozen under custody has a record. */
  ghost predicate Valid(s: State)
  {
    (forall a | a in s.records :: IsStakeAddress(a) && Locked(s, Holder(a), HeldAccount(a))) &&
    (forall k | k in s.tokens && s.tokens[k].frozen && s.tokens[k].delegate == Some(ProgramAuthority()) ::
       StakeAddress(s.tokens[k].owner, k) in s.records)
  }

  /** Staked exactly when delegated to the custody authority and frozen. */
  lemma StakedIffLocked(s: State, holder: Address, account: Address)
    requires Valid(s)
    ensures StakeAddress(holder, account) in s.records <==> Locked(s, holder, account)
  {
  }

  /** One token account is held by at most one record. */
  lemma OneRecordPerAccount(s: State, a1: Address, a2: Address)
    requires Valid(s) && a1 in s.records && a2 in s.records
    requires IsStakeAddress(a1) && IsStakeAddress(a2) && HeldAccount(a1) == HeldAccount(a2)
    ensures a1 == a2
  {
    assert Locked(s, Holder(a1), HeldAccount(a1)) && Locked(s, Holder(a2), HeldAccount(a2));
  }

  /** A successful `stake` keeps the invariant. */
  lemma StakePreservesValid(s: State, acc: NftAccounts, now: i64)
    requires Valid(s) && Stake(s, acc, now).Ok?
    ensures Valid(Stake(s, acc, now).value)
  {
    var s' := Stake(s, acc, now).value;
    var key := StakeAddress(acc.user, acc.tokenAccount);
    StakeAddressInjective(acc.user, acc.tokenAccount, acc.user, acc.tokenAccount);
    forall a | a in s'.records
      ensures IsStakeAddress(a) && Locked(s', Holder(a), HeldAccount(a))
    {
      if a != key {
        assert Locked(s, Holder(a), HeldAccount(a));
        assert HeldAccount(a) != acc.tokenAccount;
      }
    }
  }

  /** `unstake` leaves every frozen account other than the released one as it was: a frozen reward account refuses the mint. */
  lemma UnstakeKeepsFrozenAccounts(s: State, acc: NftAccounts, now: i64, k: Address)
    requires Unstake(s, acc, now).Ok?
    requires k in s.tokens && k != acc.tokenAccount && s.tokens[k].frozen
    ensures k in Unstake(s, acc, now).value.0.tokens && Unstake(s, acc, now).value.0.tokens[k] == s.tokens[k]
  {
  }

  /** After `unstake`, every remaining record still locks its account. */
  lemma UnstakeKeepsRecordsLocked(s: State, acc: NftAccounts, now: i64)
    requires Valid(s) && Unstake(s, acc, now).Ok?
    ensures var s' := Unstake(s, acc, now).value.0;
      forall a | a in s'.records :: IsStakeAddress(a) && Locked(s', Holder(a), HeldAccount(a))
  {
    var s' := Unstake(s, acc, now).value.0;
    forall a | a in s'.records
      ensures IsStakeAddress(a) && Locked(s', Holder(a), HeldAccount(a))
    {
      var h := HeldAccount(a);
      assert Locked(s, Holder(a), h);
      StakeAddressInjective(Holder(a), h, acc.user, acc.tokenAccount);
      UnstakeKeepsFrozenAccounts(s, acc, now, h);
    }
  }

  /** After `unstake`, every account frozen under custody still has its record. */
  lemma UnstakeKeepsLockedRecorded(s: State, acc: NftAccounts, now: i64)
    requires Valid(s) && Unstake(s, acc, now).Ok?
    ensures var s' := Unstake(s, acc, now).value.0;
      forall k | k in s'.tokens && s'.tokens[k].frozen && s'.tokens[k].delegate == Some(ProgramAuthority()) ::
        StakeAddress(s'.tokens[k].owner, k) in s'.records
  {
    var s' := Unstake(s, acc, now).value.0;
    forall k | k in s'.tokens && s'.tokens[k].frozen && s'.tokens[k].delegate == Some(ProgramAuthority())
      ensures StakeAddress(s'.tokens[k].owner, k) in s'.records
    {
      assert k in s.tokens && s.tokens[k] == s'.tokens[k];
      StakeAddressInjective(s'.tokens[k].owner, k, acc.user, acc.tokenAccount);
    }
  }

  /** A successful `unstake` keeps the invariant. */
  lemma UnstakePreservesValid(s: State, acc: NftAccounts, now: i64)
    requires Valid(s) && Unstake(s, acc, now).Ok?
    ensures Valid(Unstake(s, acc, now).value.0)
  {
    UnstakeKeepsRecordsLocked(s, acc, now);
    UnstakeKeepsLockedRecorded(s, acc, now);
  }

  /**
   * On a staked pair, `unstake` with the right accounts fails only when the
   * clock reads earlier than the record (and then it aborts, never wraps):
   * thawing and revoking cannot fail, and minting the reward may fail
   * without stopping it.
   */
  lemma UnstakeOfStakedPair(s: State, acc: NftAccounts, now: i64)
    requires Valid(s)
    requires StakeAddress(acc.user, acc.tokenAccount) in s.records
    requires acc.tokenAccount in s.tokens && acc.nftMint == s.tokens[acc.tokenAccount].mint
    requires acc.masterEdition == MasterEditionAddress(acc.nftMint)
    requires RewardMint() in s.mints
    requires RewardAccount(acc.user) in s.tokens ==>
      s.tokens[RewardAccount(acc.user)].mint == RewardMint() && s.tokens[RewardAccount(acc.user)].owner == acc.user
    ensures Unstake(s, acc, now).Ok? <==>
      s.records[StakeAddress(acc.user, acc.tokenAccount)].timestamp <= UnsignedAbs(now)
    ensures s.records[StakeAddress(acc.user, acc.tokenAccount)].timestamp > UnsignedAbs(now) ==>
      Unstake(s, acc, now) == Err(ArithmeticOverflow)
  {
    StakedIffLocked(s, acc.user, acc.tokenAccount);
  }

  /**
   * As the runtime executes it, `unstake` can never release an NFT while the
   * reward mint's mint authority is not the derived one: every attempt, at
   * any clock, aborts with the token program's error, so the account stays
   * frozen under custody. `UnstakeOfStakedPair` shows that `Unstake`, which
   * reports the refused mint instead, releases it.
   */
  lemma RefusedMintLocksNftOnChain(s: State, acc: NftAccounts, now: i64)
    requires RewardMint() in s.mints && s.mints[RewardMint()].mintAuthority != Some(MintAuthority())
    ensures UnstakeOnChain(s, acc, now).Err?
  {
  }

  /**
   * After a successful `stake`, the pair is staked in a valid state and
   * `unstake` with the same accounts meets every condition of
   * `UnstakeOfStakedPair`.
   */
  lemma StakeEnablesUnstake(s: State, acc: NftAccounts, t0: i64)
    requires Valid(s) && Stake(s, acc, t0).Ok?
    requires RewardMint() in s.mints
    requires RewardAccount(acc.user) in s.tokens ==>
      s.tokens[RewardAccount(acc.user)].mint == RewardMint() && s.tokens[RewardAccount(acc.user)].owner == acc.user
    ensures var s1 := Stake(s, acc, t0).value;
      Valid(s1) && StakeAddress(acc.user, acc.tokenAccount) in s1.records &&
      s1.records[StakeAddress(acc.user, acc.tokenAccount)].timestamp == UnsignedAbs(t0) &&
      acc.tokenAccount in s1.tokens && acc.nftMint == s1.tokens[acc.tokenAccount].mint &&
      acc.masterEdition == MasterEditionAddress(acc.nftMint) && RewardMint() in s1.mints &&
      (RewardAccount(acc.user) in s1.tokens ==>
         s1.tokens[RewardAccount(acc.user)].mint == RewardMint() && s1.tokens[RewardAccount(acc.user)].owner == acc.user)
  {
    StakePreservesValid(s, acc, t0);
    assert RewardAccount(acc.user) == acc.tokenAccount ==> acc.nftMint == RewardMint();
  }

  /**
   * Stake then unstake, with the clock not running backwards, succeeds,
   * pays exactly the elapsed time and leaves the records as they were
   * (`RoundTripAllowsRestake` shows the pair can then be staked again).
   */
  lemma StakeUnstakeRoundTrip(s: State, acc: NftAccounts, t0: i64, s1: State, t1: i64)
    requires Valid(s) && Stake(s, acc, t0) == Ok(s1)
    requires RewardMint() in s.mints
    requires RewardAccount(acc.user) in s.tokens ==>
      s.tokens[RewardAccount(acc.user)].mint == RewardMint() && s.tokens[RewardAccount(acc.user)].owner == acc.user
    requires UnsignedAbs(t0) <= UnsignedAbs(t1)
    ensures Unstake(s1, acc, t1).Ok?
    ensures Unstake(s1, acc, t1).value.0.records == s.records
    ensures StakeAddress(acc.user, acc.tokenAccount) !in Unstake(s1, acc, t1).value.0.records
    ensures Unstake(s1, acc, t1).value.1.reward == UnsignedAbs(t1) - UnsignedAbs(t0)
  {
    var key := StakeAddress(acc.user, acc.tokenAccount);
    StakeEnablesUnstake(s, acc, t0);
    UnstakeOfStakedPair(s1, acc, t1);
    InsertThenRemove(s.records, key, StakingData(UnsignedAbs(t0)));
  }

  lemma InsertThenRemove<K, V>(m: map<K, V>, k: K, v: V)
    requires k !in m
    ensures m[k := v] - {k} == m
  {
  }

  /**
   * The round trip releases the token account: valid again, thawed, with no
   * delegate, and otherwise as it was before staking.
   */
  lemma RoundTripReleasesAccount(s: State, acc: NftAccounts, t0: i64, s1: State, t1: i64)
    requires Valid(s) && Stake(s, acc, t0) == Ok(s1)
    requires Unstake(s1, acc, t1).Ok?
    ensures var s2 := Unstake(s1, acc, t1).value.0;
      Valid(s2) &&
      !s2.tokens[acc.tokenAccount].frozen && s2.tokens[acc.tokenAccount].delegate == None &&
      (acc.tokenAccount != RewardAccount(acc.user) ==>
         s2.tokens[acc.tokenAccount] == s.tokens[acc.tokenAccount].(delegate := None, delegatedAmount := 0))
  {
    StakePreservesValid(s, acc, t0);
    UnstakePreservesValid(s1, acc, t1);
  }

  /**
   * After the round trip the pair can be staked again, at any clock: the
   * new record is the only change to the records before the first stake.
   */
  lemma RoundTripAllowsRestake(s: State, acc: NftAccounts, t0: i64, s1: State, t1: i64, t2: i64)
    requires Valid(s) && Stake(s, acc, t0) == Ok(s1)
    requires Unstake(s1, acc, t1).Ok? && acc.tokenAccount != RewardAccount(acc.user)
    ensures var s2 := Unstake(s1, acc, t1).value.0;
      Stake(s2, acc, t2).Ok? &&
      Stake(s2, acc, t2).value.records == s.records[StakeAddress(acc.user, acc.tokenAccount) := StakingData(UnsignedAbs(t2))]
  {
    var key := StakeAddress(acc.user, acc.tokenAccount);
    InsertThenRemove(s.records, key, StakingData(UnsignedAbs(t0)));
  }

  /** After a successful `unstake` the record is gone: a second `unstake` pays nothing. */
  lemma NoDoubleUnstake(s: State, acc: NftAccounts, now: i64, later: i64)
    requires Unstake(s, acc, now).Ok?
    ensures Unstake(Unstake(s, acc, now).value.0, acc, later).Err?
  {
  }

  /** The transactions a sequence of callers can submit. */
  datatype Instruction = StakeIx(acc: NftAccounts, now: i64) | UnstakeIx(acc: NftAccounts, now: i64)

  /** One transaction, applied atomically: a failed one leaves `s` as it was. */
  function Execute(s: State, ix: Instruction): State
  {
    match ix
    case StakeIx(acc, now) =>
      var r := Stake(s, acc, now);
      if r.Ok? then r.value else s
    case UnstakeIx(acc, now) =>
      var r := Unstake(s, acc, now);
      if r.Ok? then r.value.0 else s
  }

  /** Transactions executed one after another. */
  function Run(s: State, ixs: seq<Instruction>): State
    decreases |ixs|
  {
    if ixs == [] then s else Run(Execute(s, ixs[0]), ixs[1..])
  }

  /** A successful `unstake` as the runtime executes it keeps the invariant too. */
  lemma UnstakeOnChainPreservesValid(s: State, acc: NftAccounts, now: i64)
    requires Valid(s) && UnstakeOnChain(s, acc, now).Ok?
    ensures Valid(UnstakeOnChain(s, acc, now).value.0)
  {
    UnstakePreservesValid(s, acc, now);
  }

  /** Every sequence of transactions keeps the invariant. */
  lemma {:induction false} RunPreservesValid(s: State, ixs: seq<Instruction>)
    requires Valid(s)
    ensures Valid(Run(s, ixs))
    decreases |ixs|
  {
    if ixs != [] {
      match ixs[0] {
        case StakeIx(acc, now) =>
          if Stake(s, acc, now).Ok? { StakePreservesValid(s, acc, now); }
        case UnstakeIx(acc, now) =>
          if Unstake(s, acc, now).Ok? { UnstakePreservesValid(s, acc, now); }
      }
      RunPreservesValid(Execute(s, ixs[0]), ixs[1..]);
    }
  }
}

=== FILE: runtime.dfy ===
/**
 * Machine integers, error codes and result wrappers shared by the model of
 * the staking program and of the token programs it calls.
 */
module Runtime {

  const U64_MAX: int := 0xFFFF_FFFF_FFFF_FFFF
  const I64_MIN: int := -0x8000_0000_0000_0000
  const I64_MAX: int := 0x7FFF_FFFF_FFFF_FFFF

  /** Rust `u64`: balances, supplies, delegated amounts, stake timestamps. */
  type u64 = x: int | 0 <= x <= U64_MAX

  /** Rust `i64`: the clock's `unix_timestamp`. */
  type i64 = x: int | I64_MIN <= x <= I64_MAX

  datatype Option<T> = None | Some(value: T)

  /**
   * The errors an instruction can end with. The first group is raised by the
   * account validation the framework derives from the account structs, the
   * second by the token program, the third by the metadata program and the
   * last by the arithmetic in the instruction body.
   */
  datatype Error =
    // account validation
    | AccountNotInitialized   // an `Account<..>` that does not exist
    | AccountAlreadyInUse     // `init` on an address that already holds an account
    | ConstraintTokenOwner    // a token account held by someone other than the expected authority
    | ConstraintTokenMint     // a token account of another mint
    | ConstraintAssociated    // not the associated token account of (authority, mint)
    // token program
    | AccountFrozen
    | OwnerMismatch
    | MintMismatch
    | FixedSupply
    | Overflow
    | InvalidState            // freezing a frozen account, thawing a thawed one
    // metadata program
    | InvalidFreezeAuthority  // the mint's freeze authority is not its master edition
    | DerivedKeyInvalid       // the edition account is not the mint's master edition
    | NotEnoughTokens
    | InvalidDelegate
    // instruction body
    | ArithmeticOverflow      // u64 subtraction below zero (a panic with overflow checks on)

  /** What an instruction or a cross-program call returns. */
  datatype Result<T> = Ok(value: T) | Err(error: Error)
}

=== FILE: scenarios.dfy ===
/**
 * Concrete runs of the two instructions on a small ledger: one holder, one
 * NFT whose master edition holds its freeze authority, and the reward mint.
 */
module Scenarios {
  import opened Runtime
  import opened Addresses
  import opened TokenPrograms
  import opened Staking

  const Staker: Address := Keypair(1)
  const Nft: Address := Keypair(2)

  function NftAccount(): Address
  {
    AssociatedTokenAddress(Staker, Nft)
  }

  function Accounts(): NftAccounts
  {
    NftAccounts(Staker, Nft, NftAccount(), MasterEditionAddress(Nft))
  }

  /** The ledger before staking; `rewardAuthority` is the reward mint's mint authority. */
  function Ledger(rewardAuthority: Address): State
  {
    State(
      map[],
      map[NftAccount() := TokenAccount(Nft, Staker, 1, None, 0, false)],
      map[Nft := Mint(1, None, Some(MasterEditionAddress(Nft))),
          RewardMint() := Mint(0, Some(rewardAuthority), None)])
  }

  /** Stake at 1000 and unstake at 1500: the reward is 500 and it is minted to the holder. */
  lemma StakeThenUnstakePaysElapsedTime()
    ensures Stake(Ledger(MintAuthority()), Accounts(), 1000).Ok?
    ensures var s1 := Stake(Ledger(MintAuthority()), Accounts(), 1000).value;
      s1.records[StakeAddress(Staker, NftAccount())] == StakingData(1000) &&
      Unstake(s1, Accounts(), 1500).Ok? &&
      Unstake(s1, Accounts(), 1500).value.1 == Receipt(500, None) &&
      Unstake(s1, Accounts(), 1500).value.0.tokens[RewardAccount(Staker)].amount == 500 &&
      Unstake(s1, Accounts(), 1500).value.0.records == map[]
  {
  }

  /** A second stake at 1200 is refused and the record still says 1000. */
  lemma SecondStakeRefused()
    ensures var s1 := Stake(Ledger(MintAuthority()), Accounts(), 1000).value;
      Stake(s1, Accounts(), 1200) == Err(AccountAlreadyInUse) &&
      s1.records[StakeAddress(Staker, NftAccount())].timestamp == 1000
  {
  }

  /** Unstaking a pair that was never staked is refused. */
  lemma UnstakeWithoutRecordRefused()
    ensures Unstake(Ledger(MintAuthority()), Accounts(), 1500) == Err(AccountNotInitialized)
  {
  }

  /**
   * When the reward mint's authority is not the derived mint authority the
   * mint fails, yet `unstake` still succeeds, closes the record and releases
   * the account.
   */
  lemma FailedMintStillUnstakes()
    ensures var s1 := Stake(Ledger(Staker), Accounts(), 1000).value;
      Unstake(s1, Accounts(), 1500).Ok? &&
      Unstake(s1, Accounts(), 1500).value.1 == Receipt(500, Some(OwnerMismatch)) &&
      Unstake(s1, Accounts(), 1500).value.0.records == map[] &&
      Unstake(s1, Accounts(), 1500).value.0.tokens[NftAccount()] == TokenAccount(Nft, Staker, 1, None, 0, false)
  {
  }

  /**
   * The same ledger as the runtime executes it: the refused mint aborts
   * `unstake` with `OwnerMismatch`, and the NFT stays staked.
   */
  lemma FailedMintAbortsOnChain()
    ensures var s1 := Stake(Ledger(Staker), Accounts(), 1000).value;
      UnstakeOnChain(s1, Accounts(), 1500) == Err(OwnerMismatch) &&
      s1.records[StakeAddress(Staker, NftAccount())] == StakingData(1000) &&
      s1.tokens[NftAccount()].frozen
  {
  }
}

=== FILE: staking.dfy ===
/**
 * The `stake` and `unstake` instructions as functions from the accounts they
 * read to the accounts they leave behind. An instruction that fails returns
 * `Err` and, like every failed transaction, changes nothing.
 */
module Staking {
  import opened Runtime
  import opened Addresses
  import opened TokenPrograms

  /** The stake record: when staking began, in seconds. */
  datatype StakingData = StakingData(timestamp: u64)

  /**
   * The accounts the two instructions can see: the stake records the staking
   * program owns, and the token accounts and mints the token program owns.
   */
  datatype State = State(
    records: map<Address, StakingData>,
    tokens: map<Address, TokenAccount>,
    mints: map<Address, Mint>)

  /**
   * The accounts a caller names in a `stake` or `unstake` transaction; the
   * other accounts are fixed by their seeds.
   */
  datatype NftAccounts = NftAccounts(user: Address, nftMint: Address, tokenAccount: Address, masterEdition: Address)

  /** What `unstake` reports: the reward and, if minting it failed, why. */
  datatype Receipt = Receipt(reward: u64, mintFailure: Option<Error>)

  /** `i64::unsigned_abs`. */
  function UnsignedAbs(t: i64): (r: u64)
    ensures r == t as int || r == -(t as int)
    ensures r <= -I64_MIN
  {
    if t < 0 then -(t as int) else t
  }

  /**
   * The reward for a stake that began at `stakedAt` when the clock reads
   * `now`: one unit per elapsed second. The subtraction is u64 arithmetic, so
   * a clock behind the record aborts instead of wrapping.
   */
  function Reward(now: i64, stakedAt: u64): (r: Result<u64>)
    ensures r.Ok? <==> stakedAt <= UnsignedAbs(now)
    ensures r.Ok? ==> r.value + stakedAt == UnsignedAbs(now)
    ensures r.Err? ==> r.error == ArithmeticOverflow
  {
    var now := UnsignedAbs(now);
    if now < stakedAt then Err(ArithmeticOverflow) else Ok(now - stakedAt)
  }

  /**
   * The associated-token constraint: `account` is the associated token
   * account of (`authority`, `mint`), exists, and holds `mint` for `authority`.
   */
  predicate IsAssociated(tokens: map<Address, TokenAccount>, account: Address, authority: Address, mint: Address)
  {
    account == AssociatedTokenAddress(authority, mint) && account in tokens &&
    tokens[account].mint == mint && tokens[account].owner == authority
  }

  /**
   * The error of the associated-token constraint on an existing account that
   * fails it: the holder is compared first, then the address.
   */
  function AssociatedError(account: TokenAccount, authority: Address): Error
  {
    if account.owner != authority then ConstraintTokenOwner else ConstraintAssociated
  }

  /**
   * `stake`: create the record at the address derived from (user, token
   * account), delegate one token to the custody authority, freeze the
   * account through the metadata program and record the clock. Validation
   * loads the existing accounts first, then runs the `init` of the record,
   * then checks the associated-token constraint.
   */
  function Stake(s: State, acc: NftAccounts, now: i64): (r: Result<State>)
    // stake succeeds exactly on an unstaked pair whose account is the user's unfrozen associated
    // account holding the one NFT of a mint whose master edition holds its freeze authority
    ensures r.Ok? <==>
      acc.nftMint in s.mints && acc.tokenAccount in s.tokens &&
      StakeAddress(acc.user, acc.tokenAccount) !in s.records &&
      IsAssociated(s.tokens, acc.tokenAccount, acc.user, acc.nftMint) &&
      !s.tokens[acc.tokenAccount].frozen && s.tokens[acc.tokenAccount].amount == 1 &&
      acc.masterEdition == MasterEditionAddress(acc.nftMint) &&
      s.mints[acc.nftMint].freezeAuthority == Some(acc.masterEdition)
    // the NFT mint and the token account must exist
    ensures acc.nftMint !in s.mints || acc.tokenAccount !in s.tokens ==> r == Err(AccountNotInitialized)
    // at most one record per pair: a second stake is refused
    ensures StakeAddress(acc.user, acc.tokenAccount) in s.records ==> r.Err?
    ensures StakeAddress(acc.user, acc.tokenAccount) in s.records && acc.nftMint in s.mints && acc.tokenAccount in s.tokens ==>
      r == Err(AccountAlreadyInUse)
    // a token account held by someone else is refused by the constraint, before any call
    ensures (acc.nftMint in s.mints && acc.tokenAccount in s.tokens && StakeAddress(acc.user, acc.tokenAccount) !in s.records &&
             s.tokens[acc.tokenAccount].owner != acc.user) ==> r == Err(ConstraintTokenOwner)
    // the new record holds the clock, and no other record changes
    ensures r.Ok? ==>
      StakeAddress(acc.user, acc.tokenAccount) !in s.records &&
      r.value.records == s.records[StakeAddress(acc.user, acc.tokenAccount) := StakingData(UnsignedAbs(now))]
    // the token account is delegated to the custody authority for one token and frozen
    ensures r.Ok? ==>
      IsAssociated(s.tokens, acc.tokenAccount, acc.user, acc.nftMint) &&
      !s.tokens[acc.tokenAccount].frozen &&
      r.value.tokens == s.tokens[acc.tokenAccount := s.tokens[acc.tokenAccount].(
        delegate := Some(ProgramAuthority()), delegatedAmount := 1, frozen := true)]
    ensures r.Ok? ==> r.value.mints == s.mints
    // freezing succeeded: the account held the one NFT of a mint whose master edition holds its freeze authority
    ensures r.Ok? ==>
      s.tokens[acc.tokenAccount].amount == 1 && acc.masterEdition == MasterEditionAddress(acc.nftMint) &&
      acc.nftMint in s.mints && s.mints[acc.nftMint].freezeAuthority == Some(acc.masterEdition)
  {
    var key := StakeAddress(acc.user, acc.tokenAccount);
    if acc.nftMint !in s.mints || acc.tokenAccount !in s.tokens then Err(AccountNotInitialized)
    else if key in s.records then Err(AccountAlreadyInUse)
    else if !IsAssociated(s.tokens, acc.tokenAccount, acc.user, acc.nftMint) then
      Err(AssociatedError(s.tokens[acc.tokenAccount], acc.user))
    else
      match Approve(s.tokens[acc.tokenAccount], acc.user, ProgramAuthority(), 1)
      case Err(e) => Err(e)
      case Ok(approved) =>
        match FreezeDelegated(approved, acc.nftMint, s.mints[acc.nftMint], acc.masterEdition, ProgramAuthority())
        case Err(e) => Err(e)
        case Ok(frozen) =>
          Ok(State(s.records[key := StakingData(UnsignedAbs(now))], s.tokens[acc.tokenAccount := frozen], s.mints))
  }

  /** The reward token account of `user`, created by `unstake` when missing. */
  function RewardAccount(user: Address): Address
  {
    AssociatedTokenAddress(user, RewardMint())
  }

  /** The reward balance of `user` before `unstake` mints into it (0 for an account not yet created). */
  function RewardBalance(s: State, user: Address): nat
  {
    if RewardAccount(user) in s.tokens then s.tokens[RewardAccount(user)].amount else 0
  }

  /** The tokens after the `init_if_needed` of the reward account. */
  function WithRewardAccount(tokens: map<Address, TokenAccount>, user: Address): map<Address, TokenAccount>
  {
    if RewardAccount(user) in tokens then tokens
    else tokens[RewardAccount(user) := EmptyAccount(RewardMint(), user)]
  }

  /**
   * The error of `init_if_needed` on an existing reward account that is not
   * the user's account of the reward mint: the mint is compared first.
   */
  function ExistingRewardAccountError(account: TokenAccount): Error
  {
    if account.mint != RewardMint() then ConstraintTokenMint else ConstraintTokenOwner
  }

  /**
   * `unstake`: compute the reward, thaw the token account, revoke the
   * delegation, try to mint the reward (a failure is only reported), and
   * close the record. Validation loads the existing accounts first, then runs
   * the `init_if_needed` of the reward account, then checks the
   * associated-token constraint on the NFT account.
   */
  function Unstake(s: State, acc: NftAccounts, now: i64): (r: Result<(State, Receipt)>)
    // unstake needs the record of this pair, the NFT mint and account, and the reward mint
    ensures (acc.nftMint !in s.mints || StakeAddress(acc.user, acc.tokenAccount) !in s.records ||
             acc.tokenAccount !in s.tokens || RewardMint() !in s.mints) ==> r == Err(AccountNotInitialized)
    // init_if_needed: an existing reward account must be the user's account of the reward mint
    ensures (acc.nftMint in s.mints && StakeAddress(acc.user, acc.tokenAccount) in s.records &&
             acc.tokenAccount in s.tokens && RewardMint() in s.mints &&
             RewardAccount(acc.user) in s.tokens && !IsAssociated(s.tokens, RewardAccount(acc.user), acc.user, RewardMint())) ==>
      r == Err(ExistingRewardAccountError(s.tokens[RewardAccount(acc.user)]))
    ensures r.Ok? && RewardAccount(acc.user) in s.tokens ==>
      IsAssociated(s.tokens, RewardAccount(acc.user), acc.user, RewardMint())
    // thaw and revoke succeeded: the account was the pair's associated account, frozen, and
    // all of its tokens delegated to the custody authority
    ensures r.Ok? ==>
      acc.nftMint in s.mints && IsAssociated(s.tokens, acc.tokenAccount, acc.user, acc.nftMint) &&
      s.tokens[acc.tokenAccount].frozen &&
      DelegationFault(s.tokens[acc.tokenAccount], acc.nftMint, s.mints[acc.nftMint], acc.masterEdition, ProgramAuthority()) == None
    // the reward is the time elapsed since the stake
    ensures r.Ok? ==>
      StakeAddress(acc.user, acc.tokenAccount) in s.records &&
      r.value.1.reward + s.records[StakeAddress(acc.user, acc.tokenAccount)].timestamp == UnsignedAbs(now)
    // the record is closed and no other record changes
    ensures r.Ok? ==> r.value.0.records == s.records - {StakeAddress(acc.user, acc.tokenAccount)}
    // the token account is thawed and has no delegate
    ensures r.Ok? ==>
      acc.tokenAccount in r.value.0.tokens &&
      var t := r.value.0.tokens[acc.tokenAccount];
      !t.frozen && t.delegate == None && t.delegatedAmount == 0
    ensures r.Ok? && acc.tokenAccount != RewardAccount(acc.user) ==>
      acc.tokenAccount in s.tokens &&
      r.value.0.tokens[acc.tokenAccount] ==
        s.tokens[acc.tokenAccount].(delegate := None, delegatedAmount := 0, frozen := false)
    // every other token account is untouched, except the reward account's balance
    ensures r.Ok? ==>
      forall k | k in s.tokens && k != acc.tokenAccount && k != RewardAccount(acc.user) ::
        k in r.value.0.tokens && r.value.0.tokens[k] == s.tokens[k]
    ensures r.Ok? ==> r.value.0.tokens.Keys == s.tokens.Keys + {RewardAccount(acc.user)}
    // the reward account keeps its delegation and frozen flag; only its balance can change
    ensures r.Ok? && acc.tokenAccount != RewardAccount(acc.user) && RewardAccount(acc.user) in s.tokens ==>
      var after := r.value.0.tokens[RewardAccount(acc.user)];
      after == s.tokens[RewardAccount(acc.user)].(amount := after.amount)
    // a reward account created by the instruction is the user's empty account of the reward mint, apart from its balance
    ensures r.Ok? && acc.tokenAccount != RewardAccount(acc.user) && RewardAccount(acc.user) !in s.tokens ==>
      var after := r.value.0.tokens[RewardAccount(acc.user)];
      after == EmptyAccount(RewardMint(), acc.user).(amount := after.amount)
    // the mint failure is reported exactly when the token program refuses to mint the reward
    ensures r.Ok? && acc.tokenAccount != RewardAccount(acc.user) ==>
      RewardMint() in s.mints &&
      var m := MintTo(RewardMint(), s.mints[RewardMint()], WithRewardAccount(s.tokens, acc.user)[RewardAccount(acc.user)],
        MintAuthority(), r.value.1.reward);
      (r.value.1.mintFailure.None? <==> m.Ok?) && (m.Err? ==> r.value.1.mintFailure == Some(m.error))
    // a successful mint adds exactly the reward; a failed one changes no balance
    ensures r.Ok? && acc.tokenAccount != RewardAccount(acc.user) ==>
      r.value.0.tokens[RewardAccount(acc.user)].amount ==
        RewardBalance(s, acc.user) + (if r.value.1.mintFailure.None? then r.value.1.reward else 0)
    ensures r.Ok? ==>
      RewardMint() in s.mints && RewardMint() in r.value.0.mints &&
      r.value.0.mints[RewardMint()].supply ==
        s.mints[RewardMint()].supply + (if r.value.1.mintFailure.None? then r.value.1.reward else 0)
    // of the mints, only the reward mint's supply can change
    ensures r.Ok? ==>
      r.value.0.mints == s.mints[RewardMint() := s.mints[RewardMint()].(supply := r.value.0.mints[RewardMint()].supply)]
  {
    var key := StakeAddress(acc.user, acc.tokenAccount);
    var rewardAccount := RewardAccount(acc.user);
    if acc.nftMint !in s.mints || key !in s.records || acc.tokenAccount !in s.tokens || RewardMint() !in s.mints then
      Err(AccountNotInitialized)
    else if rewardAccount in s.tokens && !IsAssociated(s.tokens, rewardAccount, acc.user, RewardMint()) then
      Err(ExistingRewardAccountError(s.tokens[rewardAccount]))
    else if !IsAssociated(s.tokens, acc.tokenAccount, acc.user, acc.nftMint) then
      Err(AssociatedError(s.tokens[acc.tokenAccount], acc.user))
    else
      var tokens0 := WithRewardAccount(s.tokens, acc.user);
      match Reward(now, s.records[key].timestamp)
      case Err(e) => Err(e)
      case Ok(reward) =>
        match ThawDelegated(tokens0[acc.tokenAccount], acc.nftMint, s.mints[acc.nftMint], acc.masterEdition, ProgramAuthority())
        case Err(e) => Err(e)
        case Ok(thawed) =>
          var tokens1 := tokens0[acc.tokenAccount := thawed];
          match Revoke(tokens1[acc.tokenAccount], acc.user)
          case Err(e) => Err(e)
          case Ok(revoked) =>
            var tokens2 := tokens1[acc.tokenAccount := revoked];
            match MintTo(RewardMint(), s.mints[RewardMint()], tokens2[rewardAccount], MintAuthority(), reward)
            case Err(e) =>
              Ok((State(s.records - {key}, tokens2, s.mints), Receipt(reward, Some(e))))
            case Ok(minted) =>
              Ok((State(s.records - {key}, tokens2[rewardAccount := minted.1], s.mints[RewardMint() := minted.0]),
                  Receipt(reward, None)))
  }

  /**
   * `unstake` as the runtime executes it: a program never sees a failed
   * cross-program call, because the callee's error aborts the whole
   * instruction. A refused `mint_to` therefore ends the transaction with its
   * error, and nothing changes.
   */
  function UnstakeOnChain(s: State, acc: NftAccounts, now: i64): (r: Result<(State, Receipt)>)
    ensures r.Ok? <==> Unstake(s, acc, now).Ok? && Unstake(s, acc, now).value.1.mintFailure.None?
    ensures r.Ok? ==> r == Unstake(s, acc, now)
    ensures Unstake(s, acc, now).Ok? && Unstake(s, acc, now).value.1.mintFailure.Some? ==>
      r == Err(Unstake(s, acc, now).value.1.mintFailure.value)
  {
    match Unstake(s, acc, now)
    case Err(e) => Err(e)
    case Ok((s', receipt)) =>
      if receipt.mintFailure.Some? then Err(receipt.mintFailure.value) else Ok((s', receipt))
  }
}

=== FILE: token_programs.dfy ===
/**
 * The effect of the external programs the staking instructions call: the
 * token program's `approve`, `revoke` and `mint_to`, and the metadata
 * program's `freeze_delegated_account` and `thaw_delegated_account`. Each is
 * a function from the accounts it touches to their new values or an error;
 * an error aborts the caller unless the caller handles it.
 */
module TokenPrograms {
  import opened Runtime
  import opened Addresses

  /** A token account: a balance of one mint, held by `owner`. */
  datatype TokenAccount = TokenAccount(
    mint: Address,
    owner: Address,
    amount: u64,
    delegate: Option<Address>,
    delegatedAmount: u64,
    frozen: bool)

  /** A mint: its supply and the two authorities over it. */
  datatype Mint = Mint(supply: u64, mintAuthority: Option<Address>, freezeAuthority: Option<Address>)

  /** The account the associated token program creates for (`owner`, `mint`). */
  function EmptyAccount(mint: Address, owner: Address): TokenAccount
  {
    TokenAccount(mint, owner, 0, None, 0, false)
  }

  /** `b` holds what `a` holds: same mint, owner, balance and frozen flag. */
  predicate SameHolding(a: TokenAccount, b: TokenAccount)
  {
    a.mint == b.mint && a.owner == b.owner && a.amount == b.amount && a.frozen == b.frozen
  }

  /**
   * Token program `approve`: the owner lets `delegate` move up to `amount`
   * tokens. Refused on a frozen account or without the owner's signature.
   */
  function Approve(account: TokenAccount, authority: Address, delegate: Address, amount: u64): (r: Result<TokenAccount>)
    ensures r.Ok? <==> !account.frozen && authority == account.owner
    ensures account.frozen ==> r == Err(AccountFrozen)
    ensures r.Ok? ==> SameHolding(account, r.value)
    ensures r.Ok? ==> r.value.delegate == Some(delegate) && r.value.delegatedAmount == amount
  {
    if account.frozen then Err(AccountFrozen)
    else if authority != account.owner then Err(OwnerMismatch)
    else Ok(account.(delegate := Some(delegate), delegatedAmount := amount))
  }

  /**
   * Token program `revoke`: the owner withdraws any delegation. Refused on a
   * frozen account or without the owner's signature; succeeds when there is
   * no delegate.
   */
  function Revoke(account: TokenAccount, authority: Address): (r: Result<TokenAccount>)
    ensures r.Ok? <==> !account.frozen && authority == account.owner
    ensures account.frozen ==> r == Err(AccountFrozen)
    ensures r.Ok? ==> SameHolding(account, r.value)
    ensures r.Ok? ==> r.value.delegate == None && r.value.delegatedAmount == 0
  {
    if account.frozen then Err(AccountFrozen)
    else if authority != account.owner then Err(OwnerMismatch)
    else Ok(account.(delegate := None, delegatedAmount := 0))
  }

  /**
   * The checks the metadata program makes before it freezes or thaws a
   * delegated NFT account for `delegate`: the mint's freeze authority is the
   * edition account, the account holds the NFT, every token it holds is
   * delegated to `delegate`, and the edition is the mint's master edition.
   */
  function DelegationFault(account: TokenAccount, mintKey: Address, mint: Mint, edition: Address, delegate: Address): (f: Option<Error>)
    ensures f == None <==>
      mint.freezeAuthority == Some(edition) && edition == MasterEditionAddress(mintKey) &&
      account.mint == mintKey && account.amount >= 1 &&
      account.delegate == Some(delegate) && account.delegatedAmount == account.amount
  {
    if mint.freezeAuthority != Some(edition) then Some(InvalidFreezeAuthority)
    else if account.mint != mintKey then Some(MintMismatch)
    else if account.amount < 1 then Some(NotEnoughTokens)
    else if account.delegate != Some(delegate) || account.delegatedAmount != account.amount then Some(InvalidDelegate)
    else if edition != MasterEditionAddress(mintKey) then Some(DerivedKeyInvalid)
    else None
  }

  /** Metadata program `freeze_delegated_account`, signed by `delegate`. */
  function FreezeDelegated(account: TokenAccount, mintKey: Address, mint: Mint, edition: Address, delegate: Address): (r: Result<TokenAccount>)
    ensures r.Ok? <==> DelegationFault(account, mintKey, mint, edition, delegate) == None && !account.frozen
    ensures r.Ok? ==> r.value == account.(frozen := true)
  {
    match DelegationFault(account, mintKey, mint, edition, delegate)
    case Some(e) => Err(e)
    case None => if account.frozen then Err(InvalidState) else Ok(account.(frozen := true))
  }

  /** Metadata program `thaw_delegated_account`, signed by `delegate`. */
  function ThawDelegated(account: TokenAccount, mintKey: Address, mint: Mint, edition: Address, delegate: Address): (r: Result<TokenAccount>)
    ensures r.Ok? <==> DelegationFault(account, mintKey, mint, edition, delegate) == None && account.frozen
    ensures r.Ok? ==> r.value == account.(frozen := false)
  {
    match DelegationFault(account, mintKey, mint, edition, delegate)
    case Some(e) => Err(e)
    case None => if !account.frozen then Err(InvalidState) else Ok(account.(frozen := false))
  }

  /**
   * Token program `mint_to`: `authority` issues `amount` new tokens of
   * `mintKey` into `dest`. Both the balance and the supply are checked
   * against u64 overflow.
   */
  function MintTo(mintKey: Address, mint: Mint, dest: TokenAccount, authority: Address, amount: u64): (r: Result<(Mint, TokenAccount)>)
    ensures r.Ok? <==>
      !dest.frozen && dest.mint == mintKey && mint.mintAuthority == Some(authority) &&
      dest.amount + amount <= U64_MAX && mint.supply + amount <= U64_MAX
    ensures r.Ok? ==> r.value.1.amount == dest.amount + amount && r.value.0.supply == mint.supply + amount
    ensures r.Ok? ==> r.value.1 == dest.(amount := r.value.1.amount)
    ensures r.Ok? ==> r.value.0 == mint.(supply := r.value.0.supply)
  {
    if dest.frozen then Err(AccountFrozen)
    else if dest.mint != mintKey then Err(MintMismatch)
    else if mint.mintAuthority.None? then Err(FixedSupply)
    else if mint.mintAuthority != Some(authority) then Err(OwnerMismatch)
    else if dest.amount + amount > U64_MAX || mint.supply + amount > U64_MAX then Err(Overflow)
    else Ok((mint.(supply := mint.supply + amount), dest.(amount := dest.amount + amount)))
  }

  /** Thawing undoes freezing: the account comes back exactly as it was. */
  lemma ThawUndoesFreeze(account: TokenAccount, mintKey: Address, mint: Mint, edition: Address, delegate: Address)
    requires FreezeDelegated(account, mintKey, mint, edition, delegate).Ok?
    ensures ThawDelegated(FreezeDelegated(account, mintKey, mint, edition, delegate).value, mintKey, mint, edition, delegate) == Ok(account)
  {
  }

  /** Revoking after approving leaves the holding intact and no delegate. */
  lemma RevokeUndoesApprove(account: TokenAccount, owner: Address, delegate: Address, amount: u64)
    requires Approve(account, owner, delegate, amount).Ok?
    ensures Revoke(Approve(account, owner, delegate, amount).value, owner) == Ok(account.(delegate := None, delegatedAmount := 0))
  {
  }
}
